=== FILE: README.md ===
# Step detector model

A Dafny model of the step detector of the pedometer code in
`StepDetector.java`. The detector takes a stream of accelerometer readings
and reduces each reading to one scalar signal value. It tracks the direction
of that signal and records a minimum or a maximum at every direction
reversal. An amplitude gate and three consistency gates then decide whether
the reversal is a step. Every step is logged and signalled to the registered
step listeners.

Modules:

- `Sensor` (`sensor.dfy`) holds the sensor event, its kind, and the
  normalisation of a tri-axis reading to one value. That value is the mean
  of `offset + axis * scale`.
- `DetectorCore` (`detector_core.dfy`) holds the detector state and the pure
  per-sample transition `Sample`.
- `SampleStream` (`sample_stream.dfy`) is a fold of `Sample` over a
  `seq<real>`, with the lemmas about whole streams.
- `Listeners` (`listeners.dfy`) holds the ordered listener registration and
  the fan-out of one step.
- `StepDetector` (`step_detector.dfy`) is the detector object. It covers
  construction, `setSensitivity`, `addStepListener` and the sensor callback
  `onSensorChanged`, plus a fold over a stream of events.

Encoding choices:

- Signal values are `real`.
- Only slot `k = 0` of the per-axis arrays is ever used. So the state keeps
  one `lastValue`, `lastDirection`, `lastDiff`, and two extremes
  `lastMin` (slot 0) and `lastMax` (slot 1).
- `mLastMatch` is `Option<Side>`: `None` is -1, `Some(Min)` is 0 and
  `Some(Max)` is 1. The test `mLastMatch != 1 - extType` becomes
  `lastMatch != Some(side.Opposite())`.
- The wall-clock time read at line 110 is the parameter `millis` of
  `OnSensorChanged`; the event's own timestamp is never read.
- The step file is an append-only `stepLog` of timestamps.
- A listener is an identifier. Its `onStep` callback is an identifier
  appended to a `delivered` log.
- The accelerometer path multiplies by `mScale[j]` with `j == 1`. That is
  `mScale[1]`, which line 69 sets to `-(240 / MAGNETIC_FIELD_EARTH_MAX)`, a
  negative number. The platform constant is not in the modelled code, so
  the scale is a parameter of `New`. The model drops the sign restriction
  and accepts any scale; no property proved here depends on the sign. The
  offset is the constant 240, half of the window height 480.

## Behaviour worth knowing

A pedometer is expected to stay silent on a constant signal and to remember
the amplitude of the last accepted step. This code does neither. The model
follows the code.

- The reversal test `direction == -lastDirection` also holds when both
  directions are 0. Once the signal is flat, every further equal sample is
  a reversal on the maximum side.
  - `SampleStream.PlateauStepsEverySample` proves that such a plateau can
    emit a step on every sample.
  - `SampleStream.ConstantSignalFromRest` shows a fresh detector fed the
    constant 30 emitting steps.
  - The reverse also happens: an extremum sampled as two equal values is
    no reversal at all. The flat move resets the direction to 0, and the
    move away afterwards gives `-1 == -0` or `1 == -0`, which is false. So
    such a turn records no extremum and can never be a step
    (`SampleStream.FlatTurn`, `SampleStream.FlatPeakFromRest`).
  - What does hold is `SampleStream.QuietBand`: no step is emitted while
    the signal and both recorded extremes stay inside a band no wider than
    the sensitivity.
- `lastDiff` is overwritten on every reversal, accepted or not, and also
  when the amplitude gate fails. It is therefore always the spread between
  the two recorded extremes (`DetectorCore.Consistent`).
- A regular triangle wave whose amplitude is above the sensitivity emits
  one step per period in steady state. The contra gate (line 153) rejects
  the extremum opposite the last accepted one, so each acceleration cycle,
  which is one step, counts once. There are two steady phases. In one,
  every maximum is rejected as the contrary of the accepted minimum before
  it (`SampleStream.TriangleWave`). In the
  other, every minimum is rejected as the contrary of the accepted maximum
  (`SampleStream.TriangleWaveAtBottom`). Which phase a stream settles in
  depends on its start. A fresh detector on a wave between 220 and 260
  rejects the first maximum and the first minimum. It accepts the second
  maximum, and from then on steps only at maxima (`SampleStream.WarmUp`,
  `SampleStream.WaveFromRest`).
- Raising the sensitivity never yields more steps on the same stream from
  the same state (`SampleStream.ThresholdMonotonicity`). This holds even
  though a rejected or accepted reversal changes the match side the next
  gate sees.

## Model

| member | source | states |
|---|---|---|
| Sensor.Normalize | src/com/example/android/keychain/StepDetector.java:133-139 | the signal value is the offset plus the scale times the mean of the three axes; on equal axes it is the single-axis value |
| DetectorCore.DirectionOf | src/com/example/android/keychain/StepDetector.java:141 | the direction is 1, -1 or 0 exactly when the value rose, fell or stayed equal |
| DetectorCore.ReversalSide | src/com/example/android/keychain/StepDetector.java:145 | a reversal records the minimum exactly when the signal now rises, otherwise the maximum |
| DetectorCore.ReversalDiff | src/com/example/android/keychain/StepDetector.java:146-147 | a reversal's amplitude is the distance from the value just before it to the opposite extreme, and is never negative |
| DetectorCore.Sample | src/com/example/android/keychain/StepDetector.java:141-185 | value and direction are always recorded and the sensitivity kept; a reversal occurs exactly on `direction == -lastDirection`, flat after flat included; without one nothing else changes; with one only the extreme on its side becomes the previous value and `lastDiff` becomes the extremes' spread; a step is emitted exactly when all four gates pass; `lastMatch` becomes the side on a step, none when the amplitude gate passes but a consistency gate fails, and is unchanged otherwise |
| DetectorCore.SampleKeepsConsistent | src/com/example/android/keychain/StepDetector.java:143-185 | every sample keeps `lastDiff` equal to the spread of the two extremes, hence non-negative |
| DetectorCore.NoStepWithoutHistory | src/com/example/android/keychain/StepDetector.java:151-155 | while `lastDiff` is zero, as in a fresh detector, no reversal can be a step |
| SampleStream.StepsAtMostReversals | src/com/example/android/keychain/StepDetector.java:143-177 | a stream emits at most one step per reversal and at most one reversal per sample |
| SampleStream.FeedKeepsConsistent | src/com/example/android/keychain/StepDetector.java:143-185 | every state a stream reaches from a consistent state is consistent and keeps the sensitivity |
| SampleStream.NoReversalNoStep | src/com/example/android/keychain/StepDetector.java:143-183 | a stream with no reversal emits no step |
| SampleStream.ColdStart | src/com/example/android/keychain/StepDetector.java:151-152 | from a state with no amplitude history, a stream with at most one reversal emits no step |
| SampleStream.QuietBand | src/com/example/android/keychain/StepDetector.java:146-149 | while the last value, both extremes and all samples stay in a band no wider than the sensitivity, no step is emitted |
| SampleStream.PlateauStepsEverySample | src/com/example/android/keychain/StepDetector.java:141-155 | on a flat stretch of equal samples far enough from the recorded minimum, every sample is a reversal and a step |
| SampleStream.ConstantSignalFromRest | src/com/example/android/keychain/StepDetector.java:141-185 | a fresh detector fed five samples equal to 30 emits two steps |
| SampleStream.FlatTurn | src/com/example/android/keychain/StepDetector.java:141-143 | a turn whose extremum is sampled twice is no reversal: the three samples emit nothing, leave extremes, amplitude and match untouched, and end moving the other way |
| SampleStream.FlatPeakFromRest | src/com/example/android/keychain/StepDetector.java:141-143 | a fresh detector fed 230, 250, 250, 240 sees no reversal |
| SampleStream.Ramp | src/com/example/android/keychain/StepDetector.java:141-143 | a strictly monotone run in the current direction has no reversal and only moves the last value |
| SampleStream.Descend | src/com/example/android/keychain/StepDetector.java:143-182 | after a peak, the turn down is a reversal at the maximum: rejected and clearing the match when a minimum match is pending, a step setting the maximum match otherwise; the descent then emits nothing |
| SampleStream.Ascend | src/com/example/android/keychain/StepDetector.java:143-182 | after the trough, the turn up is a reversal at the minimum: rejected and clearing the match when a maximum match is pending, a step setting the minimum match otherwise; the ascent then emits nothing |
| SampleStream.OneCycle | src/com/example/android/keychain/StepDetector.java:143-185 | in the phase with steps at minima, one triangle period above the sensitivity has two reversals, emits exactly one step and returns to the same phase |
| SampleStream.OneCycleAtBottom | src/com/example/android/keychain/StepDetector.java:143-185 | in the phase with steps at maxima, one triangle period above the sensitivity has two reversals, emits exactly one step and returns to the same phase |
| SampleStream.TriangleWave | src/com/example/android/keychain/StepDetector.java:143-185 | in the phase with steps at minima, n triangle periods emit exactly n steps over 2n reversals |
| SampleStream.TriangleWaveAtBottom | src/com/example/android/keychain/StepDetector.java:143-185 | in the phase with steps at maxima, n triangle periods emit exactly n steps over 2n reversals |
| SampleStream.WarmUp | src/com/example/android/keychain/StepDetector.java:46-54 | a fresh detector fed 220, 260, 220, 260, 220 emits one step, at the second maximum, and is left in the phase with steps at maxima |
| SampleStream.WaveFromRest | src/com/example/android/keychain/StepDetector.java:141-185 | a fresh detector fed that warm-up and n periods of a triangle wave between 220 and 260 emits exactly n + 1 steps |
| SampleStream.SampleTwins | src/com/example/android/keychain/StepDetector.java:149-182 | two states differing only in sensitivity and match side stay so after a sample, and the more sensitive one's steps plus its pending-match credit never fall behind |
| SampleStream.FeedTwins | src/com/example/android/keychain/StepDetector.java:143-185 | over any stream, the more sensitive twin emits at least as many steps as the other, less its one-step credit |
| SampleStream.ThresholdMonotonicity | src/com/example/android/keychain/StepDetector.java:86-88 | from the same state, a higher sensitivity never yields more steps on the same stream |
| Listeners.AddStepListener | src/com/example/android/keychain/StepDetector.java:90-92 | the listener is appended at the end; earlier registrations are kept in order, duplicates included |
| Listeners.Signal | src/com/example/android/keychain/StepDetector.java:94-99 | one signal appends exactly one notification per registration, in registration order, after those already delivered |
| StepDetector.New | src/com/example/android/keychain/StepDetector.java:46-67 | a fresh detector has zeroed state, sensitivity 10, no match, offset 240 and no listeners |
| StepDetector.SetSensitivity | src/com/example/android/keychain/StepDetector.java:86-88 | only the sensitivity changes, and consistency is kept |
| StepDetector.AddListener | src/com/example/android/keychain/StepDetector.java:90-92 | only the listener list changes, by appending at its end |
| StepDetector.OnSensorChanged | src/com/example/android/keychain/StepDetector.java:102-189 | non-accelerometer events change nothing; an accelerometer event feeds its normalised value to `Sample`; a step logs its timestamp once and notifies every listener once, in order; no step leaves log and notifications unchanged |
| StepDetector.ProcessIsFeed | src/com/example/android/keychain/StepDetector.java:102-189 | a stream of events drives the state as the stream of its accelerometer values does; the log grows by the step count and the notifications by steps times listeners |
| StepDetector.ProcessContents | src/com/example/android/keychain/StepDetector.java:102-189 | after a stream of events the log gains exactly the timestamps of the accelerometer events that emitted a step, in order, and the notifications gain the whole listener list once per step |
| StepDetector.ColdStartObject | src/com/example/android/keychain/StepDetector.java:151-152 | a fresh detector fed at most one reversal logs no step and notifies no listener |

## Left out

- File output is not modelled: the directory creation, the data streams, `writeLong`, `flush` and the `writeCount` batching. A failed `writeLong` or `flush` is caught and printed (lines 157-164); that step's entry is then lost, or held in the buffer until a later flush succeeds, but the step is still signalled (line 175). `stepLog` records every step as if each write succeeded.
- StepDetector.ProcessContents: states the step log's contents only for runs in which every write succeeds, because write failures are not modelled.
- The constructor's toast message is not modelled, because it is user-interface output.
- The wall-clock timestamp is a parameter, because it reads a clock.
- The commented-out raw-sensor logging is not modelled, because it does not run.
- Floating-point rounding, NaN and signed zero are not modelled, because values are `real`.
- The platform constants behind `mScale` are not modelled, because their values are not in the modelled code. The scale is a parameter instead.
- The `synchronized` block is not modelled, because it is concurrency. Each call is one atomic transition.
- `onAccuracyChanged` is not modelled, because its body is empty.
- A listener that throws from `onStep` is not modelled, because model listeners cannot fail. In the Java code, such an exception leaves `signal` (line 175) before later listeners run. It also skips the updates of `mLastMatch` (line 176), `mLastDiff` (line 182), `mLastDirections` (line 184) and `mLastValues` (line 185). By then the extreme (line 146) has been overwritten and the step's timestamp written (line 158). The state is left partially updated.
- `SecureWebServerService.java` is not part of this model. It is service lifecycle, sensor registration and web-server glue; its `testStep` only calls `signal`.

=== FILE: detector_core.dfy ===
/** The per-sample state machine of the step detector: direction tracking,
    reversal (extremum) detection, and the amplitude and consistency gates
    that decide whether a reversal is a step.

    Only slot `k = 0` of the per-axis arrays of `StepDetector.java` is ever used, so the
    state below holds one value per field. Signal values are `real`.
 */
module DetectorCore {

  /** Which extremum a reversal records: slot 0 (a minimum, the signal was
      falling and now rises) or slot 1 (a maximum, otherwise). */
  datatype Side = Min | Max {
    function Opposite(): Side {
      if Min? then Max else Min
    }
  }

  datatype Option<T> = None | Some(value: T)

  /** A three-way direction: 1 rising, -1 falling, 0 flat. */
  type Direction = d: int | -1 <= d <= 1

  /** The detector's whole persistent state.
      `lastMatch` is the side of the last accepted step, or `None` when the
      last reversal that passed the amplitude gate was rejected (the
      Java code encodes these as 0, 1 and -1). `limit` is the sensitivity. */
  datatype DetectorState = DetectorState(
    lastValue: real,
    lastDirection: Direction,
    lastMin: real,
    lastMax: real,
    lastDiff: real,
    lastMatch: Option<Side>,
    limit: real)
  {
    /** The recorded extremum on the given side. */
    function Extreme(side: Side): real {
      if side == Min then lastMin else lastMax
    }

    /** This state with the extremum on `side` replaced by `x`. */
    function WithExtreme(side: Side, x: real): (r: DetectorState)
      ensures r.Extreme(side) == x
      ensures r.Extreme(side.Opposite()) == Extreme(side.Opposite())
      ensures r.(lastMin := lastMin, lastMax := lastMax) == this
    {
      if side == Min then this.(lastMin := x) else this.(lastMax := x)
    }
  }

  /** The sensitivity a fresh detector starts with. */
  const DefaultLimit: real := 10.0

  /** A freshly constructed detector: every array slot zero, no match yet. */
  const Initial: DetectorState := DetectorState(0.0, 0, 0.0, 0.0, 0.0, None, DefaultLimit)

  function Abs(x: real): real {
    if x < 0.0 then -x else x
  }

  /** The direction of the move from `last` to `v`. */
  function DirectionOf(v: real, last: real): (dir: Direction)
    ensures dir == 1 <==> v > last
    ensures dir == -1 <==> v < last
    ensures dir == 0 <==> v == last
  {
    if v > last then 1 else if v < last then -1 else 0
  }

  /** The side a reversal in direction `dir` records. */
  function SideOf(dir: Direction): Side {
    if dir > 0 then Min else Max
  }

  /** The reversal test of `onSensorChanged`. A flat move after a flat
      move (both directions 0) passes it. */
  predicate IsReversal(dir: Direction, lastDir: Direction) {
    dir == -lastDir
  }

  /** What the amplitude gate and the three consistency gates make of a
      reversal of amplitude `diff` on `side`. */
  datatype Verdict = BelowLimit | Inconsistent | Accepted

  function Validate(d: DetectorState, side: Side, diff: real): Verdict {
    if diff > d.limit then
      var isAlmostAsLargeAsPrevious := diff > d.lastDiff * 2.0 / 3.0;
      var isPreviousLargeEnough := d.lastDiff > diff / 3.0;
      var isNotContra := d.lastMatch != Some(side.Opposite());
      if isAlmostAsLargeAsPrevious && isPreviousLargeEnough && isNotContra then Accepted
      else Inconsistent
    else BelowLimit
  }

  /** The match side after a verdict. */
  function NextMatch(d: DetectorState, side: Side, verdict: Verdict): Option<Side> {
    match verdict
    case Accepted => Some(side)
    case Inconsistent => None
    case BelowLimit => d.lastMatch
  }

  /** The result of feeding one sample: the next state, whether the sample
      completed a reversal, and whether it emitted a step. */
  datatype Outcome = Outcome(next: DetectorState, reversed: bool, emitted: bool)

  /** The side a reversal at `v` records: the minimum when the signal now
      rises, the maximum when it now falls or stays flat. */
  function ReversalSide(d: DetectorState, v: real): (s: Side)
    ensures s == Min <==> v > d.lastValue
  {
    SideOf(DirectionOf(v, d.lastValue))
  }

  /** The amplitude of a reversal at `v`: the distance from the value just
      before the reversal to the extremum recorded on the other side. */
  function ReversalDiff(d: DetectorState, v: real): (diff: real)
    ensures diff >= 0.0
  {
    Abs(d.lastValue - d.Extreme(ReversalSide(d, v).Opposite()))
  }

  /** The acceptance condition of a reversal at `v`, gate by gate. */
  predicate AllGatesPass(d: DetectorState, v: real) {
    var diff := ReversalDiff(d, v);
    && diff > d.limit
    && diff > d.lastDiff * 2.0 / 3.0
    && d.lastDiff > diff / 3.0
    && d.lastMatch != Some(ReversalSide(d, v).Opposite())
  }

  /** One accelerometer sample: the body of `onSensorChanged` after
      normalisation. */
  function Sample(d: DetectorState, v: real): (o: Outcome)
    // direction and value are always recorded; the sensitivity never changes
    ensures o.next.lastValue == v
    ensures o.next.limit == d.limit
    ensures o.next.lastDirection == 1 <==> v > d.lastValue
    ensures o.next.lastDirection == -1 <==> v < d.lastValue
    ensures o.next.lastDirection == 0 <==> v == d.lastValue
    // a reversal is the exact sign flip, including flat after flat
    ensures o.reversed <==> o.next.lastDirection == -d.lastDirection
    ensures d.lastDirection == 0 && v == d.lastValue ==> o.reversed && ReversalSide(d, v) == Max
    // without a reversal nothing but value and direction changes
    ensures !o.reversed ==>
      && !o.emitted
      && o.next.(lastValue := d.lastValue, lastDirection := d.lastDirection) == d
    // on a reversal only the extremum on its side is replaced
    ensures o.reversed ==>
      var side := ReversalSide(d, v);
      && o.next.Extreme(side) == d.lastValue
      && o.next.Extreme(side.Opposite()) == d.Extreme(side.Opposite())
    // the remembered amplitude is the spread of the two extremes, after every reversal
    ensures o.reversed ==>
      && o.next.lastDiff == ReversalDiff(d, v)
      && o.next.lastDiff == Abs(o.next.lastMin - o.next.lastMax)
    // a step is emitted exactly when a reversal passes every gate
    ensures o.emitted <==> o.reversed && AllGatesPass(d, v)
    // the match side
    ensures o.emitted ==> o.next.lastMatch == Some(ReversalSide(d, v))
    ensures o.reversed && ReversalDiff(d, v) > d.limit && !o.emitted ==> o.next.lastMatch == None
    ensures !o.reversed || ReversalDiff(d, v) <= d.limit ==> o.next.lastMatch == d.lastMatch
  {
    var direction := DirectionOf(v, d.lastValue);
    if IsReversal(direction, d.lastDirection) then
      var side := SideOf(direction);
      var withExtreme := d.WithExtreme(side, d.lastValue);
      var diff := Abs(withExtreme.Extreme(side) - withExtreme.Extreme(side.Opposite()));
      var verdict := Validate(d, side, diff);
      var next := withExtreme.(
        lastMatch := NextMatch(d, side, verdict),
        lastDiff := diff,
        lastDirection := direction,
        lastValue := v);
      Outcome(next, true, verdict == Accepted)
    else
      Outcome(d.(lastDirection := direction, lastValue := v), false, false)
  }

  /** The remembered amplitude always equals the spread between the two
      recorded extremes, never only that of the last accepted step. */
  predicate Consistent(d: DetectorState) {
    d.lastDiff == Abs(d.lastMin - d.lastMax)
  }

  /** Every sample keeps the state consistent. */
  lemma SampleKeepsConsistent(d: DetectorState, v: real)
    requires Consistent(d)
    ensures Consistent(Sample(d, v).next)
    ensures Sample(d, v).next.lastDiff >= 0.0
  {
  }

  /** Cold start: while the remembered amplitude is zero (as in a fresh
      detector), a reversal can never be a step, whatever its size. */
  lemma NoStepWithoutHistory(d: DetectorState, v: real)
    requires d.lastDiff <= 0.0
    ensures !Sample(d, v).emitted
  {
  }
}

=== FILE: listeners.dfy ===
/** The step listeners: an ordered registration list and the synchronous
    fan-out of one step to every registration.

    A listener is represented by an identifier of any type `L`; its
    callback is represented by appending that identifier to a log of
    delivered notifications.
 */
module Listeners {

  /** Registers a listener at the end of the list. The list is not
      deduplicated: registering twice means being notified twice. */
  function AddStepListener<L>(listeners: seq<L>, l: L): (r: seq<L>)
    ensures |r| == |listeners| + 1
    ensures r[..|listeners|] == listeners
    ensures r[|listeners|] == l
    ensures multiset(r)[l] == multiset(listeners)[l] + 1
  {
    listeners + [l]
  }

  /** One step signalled to every registered listener, in list order:
      each registration receives exactly one notification, appended to the
      notifications already delivered. */
  function Signal<L>(listeners: seq<L>, delivered: seq<L>): (r: seq<L>)
    ensures |r| == |delivered| + |listeners|
    ensures r[..|delivered|] == delivered
    ensures forall i :: 0 <= i < |listeners| ==> r[|delivered| + i] == listeners[i]
    ensures multiset(r) == multiset(delivered) + multiset(listeners)
    decreases |listeners|
  {
    if |listeners| == 0 then delivered
    else
      var r := Signal(listeners[1..], delivered + [listeners[0]]);
      assert listeners == [listeners[0]] + listeners[1..];
      r
  }
}

=== FILE: sample_stream.dfy ===
/** The detector driven by a whole stream of normalised samples: a left fold
    of `Sample`, the trace of reversals and steps it produces, and what can
    be said about whole streams.
 */
module SampleStream {
  import opened DetectorCore

  /** What one sample did. */
  datatype Tick = Tick(reversed: bool, emitted: bool)

  /** The final state after a stream and one tick per sample. */
  datatype Run = Run(final: DetectorState, trace: seq<Tick>)

  /** Feeds the samples in order. */
  function Feed(d: DetectorState, vs: seq<real>): (r: Run)
    ensures |r.trace| == |vs|
    ensures forall i :: 0 <= i < |vs| ==> (r.trace[i].emitted ==> r.trace[i].reversed)
    decreases |vs|
  {
    if |vs| == 0 then Run(d, [])
    else
      var o := Sample(d, vs[0]);
      var rest := Feed(o.next, vs[1..]);
      Run(rest.final, [Tick(o.reversed, o.emitted)] + rest.trace)
  }

  function Steps(trace: seq<Tick>): nat {
    if |trace| == 0 then 0
    else (if trace[0].emitted then 1 else 0) + Steps(trace[1..])
  }

  function Reversals(trace: seq<Tick>): nat {
    if |trace| == 0 then 0
    else (if trace[0].reversed then 1 else 0) + Reversals(trace[1..])
  }

  /** The number of steps the stream emits. */
  function StepCount(d: DetectorState, vs: seq<real>): nat {
    Steps(Feed(d, vs).trace)
  }

  /** The number of reversals the stream contains. */
  function ReversalCount(d: DetectorState, vs: seq<real>): nat {
    Reversals(Feed(d, vs).trace)
  }

  /** Feeding two streams one after the other is feeding their
      concatenation. */
  lemma {:induction false} FeedAppend(d: DetectorState, a: seq<real>, b: seq<real>)
    ensures Feed(d, a + b).final == Feed(Feed(d, a).final, b).final
    ensures Feed(d, a + b).trace == Feed(d, a).trace + Feed(Feed(d, a).final, b).trace
    decreases |a|
  {
    if |a| == 0 {
      assert a + b == b;
    } else {
      assert (a + b)[1..] == a[1..] + b;
      FeedAppend(Sample(d, a[0]).next, a[1..], b);
    }
  }

  lemma {:induction false} StepsAppend(s: seq<Tick>, t: seq<Tick>)
    ensures Steps(s + t) == Steps(s) + Steps(t)
    ensures Reversals(s + t) == Reversals(s) + Reversals(t)
    decreases |s|
  {
    if |s| == 0 {
      assert s + t == t;
    } else {
      assert (s + t)[1..] == s[1..] + t;
      StepsAppend(s[1..], t);
    }
  }

  /** Peels the first sample off a stream. */
  lemma FeedFirst(d: DetectorState, vs: seq<real>)
    requires |vs| > 0
    ensures Feed(d, vs).final == Feed(Sample(d, vs[0]).next, vs[1..]).final
    ensures StepCount(d, vs) == (if Sample(d, vs[0]).emitted then 1 else 0) + StepCount(Sample(d, vs[0]).next, vs[1..])
    ensures ReversalCount(d, vs) == (if Sample(d, vs[0]).reversed then 1 else 0) + ReversalCount(Sample(d, vs[0]).next, vs[1..])
  {
    var o := Sample(d, vs[0]);
    var t := [Tick(o.reversed, o.emitted)] + Feed(o.next, vs[1..]).trace;
    assert Feed(d, vs).trace == t;
    assert t[1..] == Feed(o.next, vs[1..]).trace;
  }

  /** At most one step per sample, and only on a reversal. */
  lemma {:induction false} StepsAtMostReversals(d: DetectorState, vs: seq<real>)
    ensures StepCount(d, vs) <= ReversalCount(d, vs) <= |vs|
    decreases |vs|
  {
    if |vs| > 0 {
      StepsAtMostReversals(Sample(d, vs[0]).next, vs[1..]);
    }
  }

  /** Every state reachable by a stream from a consistent state is
      consistent. */
  lemma {:induction false} FeedKeepsConsistent(d: DetectorState, vs: seq<real>)
    requires Consistent(d)
    ensures Consistent(Feed(d, vs).final)
    ensures Feed(d, vs).final.limit == d.limit
    decreases |vs|
  {
    if |vs| > 0 {
      SampleKeepsConsistent(d, vs[0]);
      FeedKeepsConsistent(Sample(d, vs[0]).next, vs[1..]);
    }
  }

  /** A stream with no reversal emits no step. */
  lemma {:induction false} NoReversalNoStep(d: DetectorState, vs: seq<real>)
    requires ReversalCount(d, vs) == 0
    ensures StepCount(d, vs) == 0
  {
    StepsAtMostReversals(d, vs);
  }

  /** Cold start: from a state without amplitude history (a fresh detector
      has `lastDiff == 0`), a stream with at most one reversal emits no
      step. */
  lemma {:induction false} ColdStart(d: DetectorState, vs: seq<real>)
    requires d.lastDiff <= 0.0
    requires ReversalCount(d, vs) <= 1
    ensures StepCount(d, vs) == 0
    decreases |vs|
  {
    if |vs| > 0 {
      var o := Sample(d, vs[0]);
      NoStepWithoutHistory(d, vs[0]);
      if o.reversed {
        NoReversalNoStep(o.next, vs[1..]);
      } else {
        ColdStart(o.next, vs[1..]);
      }
    }
  }

  /** Every value lies in the closed band from `lo` to `hi`. */
  predicate InBand(vs: seq<real>, lo: real, hi: real) {
    forall i :: 0 <= i < |vs| ==> lo <= vs[i] <= hi
  }

  /** Noise rejection: when the last value, both recorded extremes and every
      sample stay inside a band no wider than the sensitivity, no step is
      emitted, however long the stream. */
  lemma {:induction false} QuietBand(d: DetectorState, vs: seq<real>, lo: real, hi: real)
    requires InBand([d.lastValue, d.lastMin, d.lastMax] + vs, lo, hi)
    requires hi - lo <= d.limit
    ensures StepCount(d, vs) == 0
    decreases |vs|
  {
    if |vs| > 0 {
      var all := [d.lastValue, d.lastMin, d.lastMax] + vs;
      assert all[0] == d.lastValue && all[1] == d.lastMin && all[2] == d.lastMax && all[3] == vs[0];
      var o := Sample(d, vs[0]);
      assert !o.emitted by {
        if o.reversed {
          var other := d.Extreme(ReversalSide(d, vs[0]).Opposite());
          assert lo <= other <= hi;
          assert ReversalDiff(d, vs[0]) == Abs(d.lastValue - other);
        }
      }
      assert lo <= o.next.lastMin <= hi && lo <= o.next.lastMax <= hi by {
        if o.reversed {
          var side := ReversalSide(d, vs[0]);
          assert o.next.Extreme(side) == d.lastValue;
          assert o.next.Extreme(side.Opposite()) == d.Extreme(side.Opposite());
          if side == Min {
            assert o.next.lastMin == d.lastValue && o.next.lastMax == d.lastMax;
          } else {
            assert o.next.lastMax == d.lastValue && o.next.lastMin == d.lastMin;
          }
        }
      }
      var rest := [o.next.lastValue, o.next.lastMin, o.next.lastMax] + vs[1..];
      assert InBand(rest, lo, hi) by {
        forall i | 0 <= i < |rest|
          ensures lo <= rest[i] <= hi
        {
          if i >= 3 {
            assert rest[i] == all[i + 1];
          }
        }
      }
      QuietBand(o.next, vs[1..], lo, hi);
    }
  }

  /** Every value of the stream equals `c`. */
  predicate Constant(vs: seq<real>, c: real) {
    forall i :: 0 <= i < |vs| ==> vs[i] == c
  }

  /** Plateau: once the direction is flat, every further equal sample is a
      reversal on the maximum side. When the plateau lies further than the
      sensitivity from the recorded minimum and the history is consistent
      with it, every such sample emits a step. */
  lemma {:induction false} PlateauStepsEverySample(d: DetectorState, vs: seq<real>)
    requires d.lastDirection == 0
    requires Constant(vs, d.lastValue)
    requires Abs(d.lastValue - d.lastMin) > d.limit
    requires Abs(d.lastValue - d.lastMin) > 0.0
    requires d.lastDiff == Abs(d.lastValue - d.lastMin)
    requires d.lastMatch != Some(Min)
    ensures StepCount(d, vs) == ReversalCount(d, vs) == |vs|
    decreases |vs|
  {
    if |vs| > 0 {
      var o := Sample(d, vs[0]);
      assert o.reversed && o.emitted;
      assert o.next.lastMin == d.lastMin;
      PlateauStepsEverySample(o.next, vs[1..]);
    }
  }

  /** A fresh detector fed a constant signal of 30 (above the default
      sensitivity) emits a step on every sample from the fourth on. */
  lemma ConstantSignalFromRest()
    ensures StepCount(Initial, [30.0, 30.0, 30.0, 30.0, 30.0]) == 2
  {
    var o1 := Sample(Initial, 30.0);
    assert !o1.emitted;
    var o2 := Sample(o1.next, 30.0);
    assert !o2.emitted;
    var o3 := Sample(o2.next, 30.0);
    assert !o3.emitted;
    assert o3.next.lastDiff == 30.0 && o3.next.lastMatch == None && o3.next.lastMin == 0.0;
    PlateauStepsEverySample(o3.next, [30.0, 30.0]);
    FeedFirst(o2.next, [30.0, 30.0, 30.0]);
    assert [30.0, 30.0, 30.0][1..] == [30.0, 30.0];
    FeedFirst(o1.next, [30.0, 30.0, 30.0, 30.0]);
    assert [30.0, 30.0, 30.0, 30.0][1..] == [30.0, 30.0, 30.0];
    FeedFirst(Initial, [30.0, 30.0, 30.0, 30.0, 30.0]);
    assert [30.0, 30.0, 30.0, 30.0, 30.0][1..] == [30.0, 30.0, 30.0, 30.0];
  }

  /** A turn sampled with its extremum held for two samples is no reversal
      at all: the flat move resets the direction to 0, and the move away
      afterwards is not its negation. The extremes, the remembered
      amplitude and the match side are left as they were. */
  lemma FlatTurn(d: DetectorState, v: real, w: real)
    requires d.lastDirection != 0
    requires DirectionOf(v, d.lastValue) == d.lastDirection
    requires DirectionOf(w, v) == -d.lastDirection
    ensures ReversalCount(d, [v, v, w]) == 0
    ensures StepCount(d, [v, v, w]) == 0
    ensures Feed(d, [v, v, w]).final == d.(lastValue := w, lastDirection := -d.lastDirection)
  {
    var o1 := Sample(d, v);
    assert !o1.reversed && o1.next == d.(lastValue := v);
    var o2 := Sample(o1.next, v);
    assert !o2.reversed && o2.next == d.(lastValue := v, lastDirection := 0);
    var o3 := Sample(o2.next, w);
    assert !o3.reversed;
    FeedFirst(o2.next, [w]);
    assert [w][1..] == [];
    FeedFirst(o1.next, [v, w]);
    assert [v, w][1..] == [w];
    FeedFirst(d, [v, v, w]);
    assert [v, v, w][1..] == [v, w];
    NoReversalNoStep(d, [v, v, w]);
  }

  /** A fresh detector fed a rise to a peak of 250 sampled twice, then a
      fall, sees no reversal. */
  lemma FlatPeakFromRest()
    ensures ReversalCount(Initial, [230.0, 250.0, 250.0, 240.0]) == 0
  {
    var o := Sample(Initial, 230.0);
    assert !o.reversed && o.next.lastDirection == 1;
    FlatTurn(o.next, 250.0, 240.0);
    FeedFirst(Initial, [230.0, 250.0, 250.0, 240.0]);
    assert [230.0, 250.0, 250.0, 240.0][1..] == [250.0, 250.0, 240.0];
  }

  /** Strictly monotone in direction `dir` (1 rising, -1 falling) starting
      beyond `start`. */
  predicate Monotone(vs: seq<real>, start: real, dir: Direction) {
    && (dir == 1 ==> forall i :: 0 <= i < |vs| ==> start < vs[i])
    && (dir == 1 ==> forall i, j :: 0 <= i < j < |vs| ==> vs[i] < vs[j])
    && (dir == -1 ==> forall i :: 0 <= i < |vs| ==> vs[i] < start)
    && (dir == -1 ==> forall i, j :: 0 <= i < j < |vs| ==> vs[j] < vs[i])
  }

  /** A ramp that continues the current direction has no reversal and only
      moves the last value. */
  lemma {:induction false} Ramp(d: DetectorState, vs: seq<real>)
    requires d.lastDirection != 0
    requires Monotone(vs, d.lastValue, d.lastDirection)
    ensures ReversalCount(d, vs) == 0
    ensures |vs| > 0 ==> Feed(d, vs).final == d.(lastValue := vs[|vs| - 1])
    ensures |vs| == 0 ==> Feed(d, vs).final == d
    decreases |vs|
  {
    if |vs| > 0 {
      var o := Sample(d, vs[0]);
      assert !o.reversed;
      assert o.next == d.(lastValue := vs[0]);
      Ramp(o.next, vs[1..]);
      if |vs| > 1 {
        assert vs[1..][|vs| - 2] == vs[|vs| - 1];
      }
    }
  }

  /** A triangle wave between `lo` and `hi` just after its top: rising,
      the minimum recorded at `lo`, the spread remembered. */
  predicate AtTop(d: DetectorState, lo: real, hi: real) {
    && d.lastValue == hi
    && d.lastDirection == 1
    && d.lastMin == lo
    && d.lastDiff == hi - lo
  }

  /** The same wave just after its bottom: falling, the maximum recorded
      at `hi`, the spread remembered. */
  predicate AtBottom(d: DetectorState, lo: real, hi: real) {
    && d.lastValue == lo
    && d.lastDirection == -1
    && d.lastMax == hi
    && d.lastDiff == hi - lo
  }

  /** A descent from just below `hi` to `lo` and an ascent from just above
      `lo` to `hi`. */
  predicate Cycle(down: seq<real>, up: seq<real>, lo: real, hi: real) {
    && |down| > 0 && |up| > 0
    && Monotone(down, hi, -1) && down[|down| - 1] == lo
    && Monotone(up, lo, 1) && up[|up| - 1] == hi
  }

  /** After the top: the first falling sample is a reversal at the
      maximum. It is rejected as the contrary of a pending minimum match,
      and is a step otherwise. The rest of the descent has no reversal. */
  lemma Descend(d: DetectorState, down: seq<real>, lo: real, hi: real)
    requires AtTop(d, lo, hi)
    requires lo < hi && hi - lo > d.limit
    requires |down| > 0 && Monotone(down, hi, -1) && down[|down| - 1] == lo
    ensures var m := Feed(d, down).final;
      && AtBottom(m, lo, hi) && m.lastMin == lo && m.limit == d.limit
      && m.lastMatch == (if d.lastMatch == Some(Min) then None else Some(Max))
    ensures StepCount(d, down) == (if d.lastMatch == Some(Min) then 0 else 1)
    ensures ReversalCount(d, down) == 1
  {
    FeedFirst(d, down);
    var top := Sample(d, down[0]);
    assert top.reversed;
    assert top.emitted <==> d.lastMatch != Some(Min);
    assert top.next == d.(lastValue := down[0], lastDirection := -1, lastMax := hi,
      lastMatch := if d.lastMatch == Some(Min) then None else Some(Max));
    Ramp(top.next, down[1..]);
    NoReversalNoStep(top.next, down[1..]);
    if |down| > 1 {
      assert down[1..][|down| - 2] == down[|down| - 1];
    }
  }

  /** After the bottom: the first rising sample is a reversal at the
      minimum. It is rejected as the contrary of a pending maximum match,
      and is a step otherwise. The rest of the ascent has no reversal. */
  lemma Ascend(m: DetectorState, up: seq<real>, lo: real, hi: real)
    requires AtBottom(m, lo, hi)
    requires lo < hi && hi - lo > m.limit
    requires |up| > 0 && Monotone(up, lo, 1) && up[|up| - 1] == hi
    ensures var t := Feed(m, up).final;
      && AtTop(t, lo, hi) && t.lastMax == hi && t.limit == m.limit
      && t.lastMatch == (if m.lastMatch == Some(Max) then None else Some(Min))
    ensures StepCount(m, up) == (if m.lastMatch == Some(Max) then 0 else 1)
    ensures ReversalCount(m, up) == 1
  {
    FeedFirst(m, up);
    var bottom := Sample(m, up[0]);
    assert bottom.reversed;
    assert bottom.emitted <==> m.lastMatch != Some(Max);
    assert bottom.next == m.(lastValue := up[0], lastDirection := 1, lastMin := lo,
      lastMatch := if m.lastMatch == Some(Max) then None else Some(Min));
    Ramp(bottom.next, up[1..]);
    NoReversalNoStep(bottom.next, up[1..]);
    if |up| > 1 {
      assert up[1..][|up| - 2] == up[|up| - 1];
    }
  }

  /** Steady state with steps at the minima: one period from the top has
      two reversals and one step, and returns to the same phase. */
  lemma OneCycle(d: DetectorState, down: seq<real>, up: seq<real>, lo: real, hi: real)
    requires AtTop(d, lo, hi) && d.lastMatch == Some(Min)
    requires lo < hi && hi - lo > d.limit
    requires Cycle(down, up, lo, hi)
    ensures var t := Feed(d, down + up).final;
      AtTop(t, lo, hi) && t.lastMatch == Some(Min) && t.limit == d.limit
    ensures StepCount(d, down + up) == 1
    ensures ReversalCount(d, down + up) == 2
  {
    FeedAppend(d, down, up);
    Descend(d, down, lo, hi);
    var mid := Feed(d, down).final;
    Ascend(mid, up, lo, hi);
    StepsAppend(Feed(d, down).trace, Feed(mid, up).trace);
  }

  /** Steady state with steps at the maxima: one period from the bottom
      has two reversals and one step, and returns to the same phase. */
  lemma OneCycleAtBottom(d: DetectorState, down: seq<real>, up: seq<real>, lo: real, hi: real)
    requires AtBottom(d, lo, hi) && d.lastMatch == Some(Max)
    requires lo < hi && hi - lo > d.limit
    requires Cycle(down, up, lo, hi)
    ensures var b := Feed(d, up + down).final;
      AtBottom(b, lo, hi) && b.lastMatch == Some(Max) && b.limit == d.limit
    ensures StepCount(d, up + down) == 1
    ensures ReversalCount(d, up + down) == 2
  {
    FeedAppend(d, up, down);
    Ascend(d, up, lo, hi);
    var mid := Feed(d, up).final;
    Descend(mid, down, lo, hi);
    StepsAppend(Feed(d, up).trace, Feed(mid, down).trace);
  }

  /** `n` repetitions of a sequence, one after the other. */
  function Repeat<T>(vs: seq<T>, n: nat): (r: seq<T>)
    ensures |r| == n * |vs|
  {
    if n == 0 then [] else vs + Repeat(vs, n - 1)
  }

  /** In the phase with steps at the minima, a sampled triangle wave emits
      one step per period, not one per half-period: every maximum is
      rejected as the contrary of the minimum before it. */
  lemma {:induction false} TriangleWave(d: DetectorState, down: seq<real>, up: seq<real>, lo: real, hi: real, n: nat)
    requires AtTop(d, lo, hi) && d.lastMatch == Some(Min)
    requires lo < hi && hi - lo > d.limit
    requires Cycle(down, up, lo, hi)
    ensures StepCount(d, Repeat(down + up, n)) == n
    ensures ReversalCount(d, Repeat(down + up, n)) == 2 * n
    decreases n
  {
    if n > 0 {
      OneCycle(d, down, up, lo, hi);
      var next := Feed(d, down + up).final;
      TriangleWave(next, down, up, lo, hi, n - 1);
      FeedAppend(d, down + up, Repeat(down + up, n - 1));
      StepsAppend(Feed(d, down + up).trace, Feed(next, Repeat(down + up, n - 1)).trace);
    }
  }

  /** In the phase with steps at the maxima, the wave likewise emits one
      step per period: every minimum is rejected as the contrary of the
      maximum before it. */
  lemma {:induction false} TriangleWaveAtBottom(d: DetectorState, down: seq<real>, up: seq<real>, lo: real, hi: real, n: nat)
    requires AtBottom(d, lo, hi) && d.lastMatch == Some(Max)
    requires lo < hi && hi - lo > d.limit
    requires Cycle(down, up, lo, hi)
    ensures StepCount(d, Repeat(up + down, n)) == n
    ensures ReversalCount(d, Repeat(up + down, n)) == 2 * n
    decreases n
  {
    if n > 0 {
      OneCycleAtBottom(d, down, up, lo, hi);
      var next := Feed(d, up + down).final;
      TriangleWaveAtBottom(next, down, up, lo, hi, n - 1);
      FeedAppend(d, up + down, Repeat(up + down, n - 1));
      StepsAppend(Feed(d, up + down).trace, Feed(next, Repeat(up + down, n - 1)).trace);
    }
  }

  /** The warm-up of a fresh detector on a wave between 220 and 260: the
      first maximum and the first minimum are rejected (no amplitude
      history, then an inconsistent one), the second maximum is a step,
      and the detector is left in the phase with steps at the maxima. */
  lemma WarmUp()
    ensures var m := Feed(Initial, [220.0, 260.0, 220.0, 260.0, 220.0]).final;
      AtBottom(m, 220.0, 260.0) && m.lastMatch == Some(Max) && m.limit == DefaultLimit
    ensures StepCount(Initial, [220.0, 260.0, 220.0, 260.0, 220.0]) == 1
  {
    var o1 := Sample(Initial, 220.0);
    assert !o1.reversed;
    var o2 := Sample(o1.next, 260.0);
    assert !o2.reversed;
    var o3 := Sample(o2.next, 220.0);
    assert o3.reversed && !o3.emitted && o3.next.lastDiff == 260.0;
    var o4 := Sample(o3.next, 260.0);
    assert o4.reversed && !o4.emitted && o4.next.lastMatch == None && o4.next.lastDiff == 40.0;
    var o5 := Sample(o4.next, 220.0);
    assert o5.emitted && o5.next.lastMatch == Some(Max);
    assert Feed(o5.next, []).final == o5.next;
    FeedFirst(o4.next, [220.0]);
    assert [220.0][1..] == [];
    FeedFirst(o3.next, [260.0, 220.0]);
    assert [260.0, 220.0][1..] == [220.0];
    FeedFirst(o2.next, [220.0, 260.0, 220.0]);
    assert [220.0, 260.0, 220.0][1..] == [260.0, 220.0];
    FeedFirst(o1.next, [260.0, 220.0, 260.0, 220.0]);
    assert [260.0, 220.0, 260.0, 220.0][1..] == [220.0, 260.0, 220.0];
    FeedFirst(Initial, [220.0, 260.0, 220.0, 260.0, 220.0]);
    assert [220.0, 260.0, 220.0, 260.0, 220.0][1..] == [260.0, 220.0, 260.0, 220.0];
  }

  /** A fresh detector fed that warm-up and then `n` periods of any
      triangle wave between 220 and 260 emits `n + 1` steps, all at
      maxima: which side is accepted depends on the phase the warm-up
      leaves, not on the wave. */
  lemma WaveFromRest(down: seq<real>, up: seq<real>, n: nat)
    requires Cycle(down, up, 220.0, 260.0)
    ensures StepCount(Initial, [220.0, 260.0, 220.0, 260.0, 220.0] + Repeat(up + down, n)) == n + 1
  {
    var warm := [220.0, 260.0, 220.0, 260.0, 220.0];
    WarmUp();
    var m := Feed(Initial, warm).final;
    TriangleWaveAtBottom(m, down, up, 220.0, 260.0, n);
    FeedAppend(Initial, warm, Repeat(up + down, n));
    StepsAppend(Feed(Initial, warm).trace, Feed(m, Repeat(up + down, n)).trace);
  }

  /** Two detectors that agree on everything except the sensitivity and
      the match side, the first no less sensitive than the second. */
  predicate Twins(d1: DetectorState, d2: DetectorState) {
    && d1.(limit := d2.limit, lastMatch := d2.lastMatch) == d2
    && d1.limit <= d2.limit
  }

  /** The one step the more sensitive twin may owe: its pending match can
      block a step the other twin is free to take. */
  function Credit(m1: Option<Side>, m2: Option<Side>): nat {
    if m1.Some? && m1 != m2 then 1 else 0
  }

  /** One sample keeps twins twins, and the more sensitive twin's steps
      plus its credit never fall behind the other's. */
  lemma SampleTwins(d1: DetectorState, d2: DetectorState, v: real)
    requires Twins(d1, d2)
    ensures var o1 := Sample(d1, v);
      var o2 := Sample(d2, v);
      && Twins(o1.next, o2.next)
      && (if o1.emitted then 1 else 0) + Credit(d1.lastMatch, d2.lastMatch)
         >= (if o2.emitted then 1 else 0) + Credit(o1.next.lastMatch, o2.next.lastMatch)
  {
  }

  lemma {:induction false} FeedTwins(d1: DetectorState, d2: DetectorState, vs: seq<real>)
    requires Twins(d1, d2)
    ensures StepCount(d1, vs) + Credit(d1.lastMatch, d2.lastMatch) >= StepCount(d2, vs)
    decreases |vs|
  {
    if |vs| > 0 {
      SampleTwins(d1, d2, vs[0]);
      FeedFirst(d1, vs);
      FeedFirst(d2, vs);
      FeedTwins(Sample(d1, vs[0]).next, Sample(d2, vs[0]).next, vs[1..]);
    }
  }

  /** Threshold monotonicity: from the same state, raising the
      sensitivity never yields more steps on the same stream. */
  lemma ThresholdMonotonicity(d: DetectorState, lo: real, hi: real, vs: seq<real>)
    requires lo <= hi
    ensures StepCount(d.(limit := hi), vs) <= StepCount(d.(limit := lo), vs)
  {
    FeedTwins(d.(limit := lo), d.(limit := hi), vs);
  }
}

=== FILE: sensor.dfy ===
/** Sensor events and the normalisation of a tri-axis accelerometer reading
    into the one scalar signal value the step detector consumes.

    Values are modelled as `real`; the floating-point rounding of the
    Java float arithmetic is not part of this model.
 */
module Sensor {

  /** The kinds of sensor the detector can be registered for. Only the
      accelerometer drives detection; orientation and every other kind of
      sensor leave the detector untouched. */
  datatype SensorType = Orientation | Accelerometer | OtherSensor

  /** One reading delivered by the platform: its sensor kind and its three
      axis values. */
  datatype SensorEvent = SensorEvent(sensor: SensorType, x: real, y: real, z: real)

  /** Height of the notional drawing window the signal is mapped into. */
  const WindowHeight: real := 480.0

  /** Vertical offset added to every axis value: half the window height. */
  const YOffset: real := WindowHeight * 0.5

  /** Normalises one axis: the offset plus the axis value times the scale. */
  function Axis(offset: real, scale: real, a: real): real
  {
    offset + a * scale
  }

  /** The scalar signal value of one reading: the mean over the three axes
      of the normalised axis values. The detector passes its offset and its
      accelerometer scale. */
  function Normalize(offset: real, scale: real, ev: SensorEvent): (v: real)
    ensures v == offset + scale * ((ev.x + ev.y + ev.z) / 3.0)
    ensures ev.x == ev.y == ev.z ==> v == Axis(offset, scale, ev.x)
  {
    var vSum := Axis(offset, scale, ev.x) + Axis(offset, scale, ev.y) + Axis(offset, scale, ev.z);
    vSum / 3.0
  }
}

=== FILE: step_detector.dfy ===
/** The step detector object as the platform sees it: the detector state,
    the normalisation calibration, the registered listeners, the
    notifications delivered to them and the log of step timestamps.
 */
module StepDetector {
  import opened Sensor
  import opened DetectorCore
  import opened Listeners
  import opened SampleStream

  /** `stepLog` abstracts the step file: one timestamp appended per
      emitted step. `delivered` records every listener notification in
      delivery order. */
  datatype Detector<L> = Detector(
    state: DetectorState,
    offset: real,
    scale: real,
    listeners: seq<L>,
    delivered: seq<L>,
    stepLog: seq<int>)

  /** A fresh detector. `scale` is the accelerometer calibration factor;
      the offset is half the window height. */
  function New<L>(scale: real): (d: Detector<L>)
    ensures d.state == Initial && Consistent(d.state)
    ensures d.offset == 240.0 && d.scale == scale
    ensures d.listeners == [] && d.delivered == [] && d.stepLog == []
  {
    Detector(Initial, YOffset, scale, [], [], [])
  }

  /** Changes the sensitivity and nothing else; it takes effect from the
      next sample and resets no history. */
  function SetSensitivity<L>(d: Detector<L>, sensitivity: real): (r: Detector<L>)
    ensures r.state.limit == sensitivity
    ensures r.state.(limit := d.state.limit) == d.state
    ensures r.(state := d.state) == d
    ensures Consistent(d.state) ==> Consistent(r.state)
  {
    d.(state := d.state.(limit := sensitivity))
  }

  /** Registers a listener at the end of the list and changes nothing
      else. */
  function AddListener<L>(d: Detector<L>, l: L): (r: Detector<L>)
    ensures r.listeners == d.listeners + [l]
    ensures r.(listeners := d.listeners) == d
  {
    d.(listeners := AddStepListener(d.listeners, l))
  }

  /** The sensor callback. Non-accelerometer events change nothing. An
      accelerometer event is normalised and fed to the state machine; when
      it emits a step, the timestamp `millis` is logged once and every
      listener is notified once, in registration order. */
  function OnSensorChanged<L>(d: Detector<L>, ev: SensorEvent, millis: int): (r: Detector<L>)
    ensures ev.sensor != Accelerometer ==> r == d
    ensures r.listeners == d.listeners && r.offset == d.offset && r.scale == d.scale
    ensures ev.sensor == Accelerometer ==>
      var o := Sample(d.state, Normalize(d.offset, d.scale, ev));
      && r.state == o.next
      && (o.emitted ==> r.stepLog == d.stepLog + [millis])
      && (o.emitted ==> |r.delivered| == |d.delivered| + |d.listeners|)
      && (o.emitted ==> r.delivered[..|d.delivered|] == d.delivered)
      && (o.emitted ==> forall i :: 0 <= i < |d.listeners| ==> r.delivered[|d.delivered| + i] == d.listeners[i])
      && (!o.emitted ==> r.stepLog == d.stepLog && r.delivered == d.delivered)
  {
    if ev.sensor == Accelerometer then
      var o := Sample(d.state, Normalize(d.offset, d.scale, ev));
      if o.emitted then
        d.(state := o.next, stepLog := d.stepLog + [millis], delivered := Signal(d.listeners, d.delivered))
      else
        d.(state := o.next)
    else
      d
  }

  /** The signal values of the accelerometer events of a stream, in
      order; other events are dropped. */
  function AccelValues(offset: real, scale: real, evs: seq<SensorEvent>): (vs: seq<real>)
    ensures |vs| <= |evs|
    decreases |evs|
  {
    if |evs| == 0 then []
    else if evs[0].sensor == Accelerometer then [Normalize(offset, scale, evs[0])] + AccelValues(offset, scale, evs[1..])
    else AccelValues(offset, scale, evs[1..])
  }

  /** Feeds a stream of events, the i-th stamped `times[i]`. */
  function Process<L>(d: Detector<L>, evs: seq<SensorEvent>, times: seq<int>): Detector<L>
    requires |times| == |evs|
    decreases |evs|
  {
    if |evs| == 0 then d
    else Process(OnSensorChanged(d, evs[0], times[0]), evs[1..], times[1..])
  }

  /** The first event of a stream, seen from the stream of accelerometer
      values: `e` is the number of steps it emits. */
  lemma FirstEvent<L>(d: Detector<L>, evs: seq<SensorEvent>, millis: int) returns (e: nat)
    requires |evs| > 0
    ensures var vs := AccelValues(d.offset, d.scale, evs);
      var next := OnSensorChanged(d, evs[0], millis);
      var rest := AccelValues(d.offset, d.scale, evs[1..]);
      && e <= 1
      && next.offset == d.offset && next.scale == d.scale && next.listeners == d.listeners
      && Feed(d.state, vs).final == Feed(next.state, rest).final
      && StepCount(d.state, vs) == e + StepCount(next.state, rest)
      && |next.stepLog| == |d.stepLog| + e
      && |next.delivered| == |d.delivered| + e * |d.listeners|
  {
    var vs := AccelValues(d.offset, d.scale, evs);
    var rest := AccelValues(d.offset, d.scale, evs[1..]);
    if evs[0].sensor == Accelerometer {
      FeedFirst(d.state, vs);
      assert vs[1..] == rest;
      e := if Sample(d.state, vs[0]).emitted then 1 else 0;
    } else {
      assert vs == rest;
      e := 0;
    }
  }

  lemma Distribute(a: nat, b: nat, n: nat)
    ensures (a + b) * n == a * n + b * n
  {
  }

  /** A stream of events drives the state exactly as the stream of its
      normalised accelerometer values does; each emitted step logs one
      timestamp and delivers one notification per registered listener. */
  lemma {:induction false} ProcessIsFeed<L>(d: Detector<L>, evs: seq<SensorEvent>, times: seq<int>)
    requires |times| == |evs|
    ensures var vs := AccelValues(d.offset, d.scale, evs);
      var r := Process(d, evs, times);
      && r.state == Feed(d.state, vs).final
      && r.listeners == d.listeners
      && |r.stepLog| == |d.stepLog| + StepCount(d.state, vs)
      && |r.delivered| == |d.delivered| + StepCount(d.state, vs) * |d.listeners|
    decreases |evs|
  {
    if |evs| > 0 {
      var next := OnSensorChanged(d, evs[0], times[0]);
      var e := FirstEvent(d, evs, times[0]);
      ProcessIsFeed(next, evs[1..], times[1..]);
      var vs := AccelValues(d.offset, d.scale, evs);
      var rest := AccelValues(next.offset, next.scale, evs[1..]);
      var r := Process(d, evs, times);
      assert r == Process(next, evs[1..], times[1..]);
      var k := StepCount(next.state, rest);
      var n := |d.listeners|;
      assert StepCount(d.state, vs) == e + k;
      assert |r.stepLog| == |next.stepLog| + k;
      assert |r.delivered| == |next.delivered| + k * n;
      assert |next.delivered| == |d.delivered| + e * n;
      Distribute(e, k, n);
    }
  }

  /** The timestamps of the accelerometer events of a stream, in order;
      they pair up with `AccelValues`. */
  function AccelTimes(evs: seq<SensorEvent>, times: seq<int>): (ts: seq<int>)
    requires |times| == |evs|
    ensures |ts| <= |evs|
    decreases |evs|
  {
    if |evs| == 0 then []
    else if evs[0].sensor == Accelerometer then [times[0]] + AccelTimes(evs[1..], times[1..])
    else AccelTimes(evs[1..], times[1..])
  }

  /** The timestamps whose sample emitted a step, in order. */
  function Emitting(trace: seq<Tick>, ts: seq<int>): seq<int>
    decreases |trace|
  {
    if |trace| == 0 || |ts| == 0 then []
    else (if trace[0].emitted then [ts[0]] else []) + Emitting(trace[1..], ts[1..])
  }

  /** The contents of the log and of the notifications after a stream of
      events: the log gains the timestamps of exactly the accelerometer
      events that emitted a step, in order, and the notifications gain the
      whole listener list once per step. */
  lemma {:induction false} ProcessContents<L>(d: Detector<L>, evs: seq<SensorEvent>, times: seq<int>)
    requires |times| == |evs|
    ensures var vs := AccelValues(d.offset, d.scale, evs);
      var r := Process(d, evs, times);
      && r.stepLog == d.stepLog + Emitting(Feed(d.state, vs).trace, AccelTimes(evs, times))
      && r.delivered == d.delivered + Repeat(d.listeners, StepCount(d.state, vs))
    decreases |evs|
  {
    if |evs| > 0 {
      var next := OnSensorChanged(d, evs[0], times[0]);
      ProcessContents(next, evs[1..], times[1..]);
      var vs := AccelValues(d.offset, d.scale, evs);
      var rest := AccelValues(d.offset, d.scale, evs[1..]);
      var ts := AccelTimes(evs[1..], times[1..]);
      assert Process(d, evs, times) == Process(next, evs[1..], times[1..]);
      if evs[0].sensor == Accelerometer {
        var o := Sample(d.state, vs[0]);
        assert vs[1..] == rest;
        FeedFirst(d.state, vs);
        var k := StepCount(o.next, rest);
        assert Feed(d.state, vs).trace == [Tick(o.reversed, o.emitted)] + Feed(o.next, rest).trace;
        assert AccelTimes(evs, times) == [times[0]] + ts;
        if o.emitted {
          assert next.delivered == d.delivered + d.listeners;
          assert Repeat(d.listeners, 1 + k) == d.listeners + Repeat(d.listeners, k);
        }
      } else {
        assert vs == rest;
      }
    }
  }

  /** A fresh detector fed fewer than two reversals logs no step and
      notifies nobody. */
  lemma {:induction false} ColdStartObject<L>(scale: real, listeners: seq<L>, evs: seq<SensorEvent>, times: seq<int>)
    requires |times| == |evs|
    requires ReversalCount(Initial, AccelValues(240.0, scale, evs)) <= 1
    ensures var d := New<L>(scale).(listeners := listeners);
      var r := Process(d, evs, times);
      r.stepLog == [] && r.delivered == []
  {
    var d := New<L>(scale).(listeners := listeners);
    var vs := AccelValues(240.0, scale, evs);
    ProcessIsFeed(d, evs, times);
    ColdStart(Initial, vs);
    var r := Process(d, evs, times);
    assert |r.stepLog| == 0;
    assert |r.delivered| == 0 * |listeners|;
  }
}
